=== FILE: README.md ===
# datacube test I/O helpers: a Dafny model

This project models the decision logic of datacube's raster test helpers
(`datacube/testutils/io.py`). The real I/O is delegated to rasterio and to
datacube's storage layer. What the helpers decide themselves is modelled as
pure functions:

- **`write_gtiff`.** It refuses arrays that are not 2-D or 3-D before looking
  at the file system. It splits the shape into width, height, band count and
  band indices. It refuses an existing target unless told to overwrite, in
  which case it deletes the target first. It builds the affine transform from
  resolution and offset. It layers the creation options: defaults (predictor 2,
  DEFLATE), then tiling clamped to the image, then nodata, then the caller's
  overrides. The returned record is annotated with its derived grid and path.
- **`dc_read` and `rio_slurp_reproject`.** Each picks the output dtype (given,
  else the source's) and the fill value (given, else the source's nodata,
  else 0). It pre-fills a canvas of the target grid's shape with that value.
  The external resampler writes into that canvas in place, and the canvas is
  what is returned: it keeps the grid's shape and the chosen dtype, and any
  cell the resampler leaves alone still holds the fill.
- **`rio_geobox` and `dc_crs_from_rio`.** They derive a GeoBox from a metadata
  record. There is no grid when `crs` or `transform` is missing. A CRS with an
  EPSG code becomes `epsg:<N>`, and any other CRS becomes its WKT.
- **`rio_slurp_read` and `rio_slurp`.** The plain read adds `out_shape` only
  when it is given, and reads band 1 alone for single-band files. The
  dispatcher routes to the reprojecting read when a GeoBox is the first
  positional argument, or `gbox` is a keyword with no positional arguments.
  It forwards `*args, **kw` under Python's binding rules. Every reader lets
  the first failing step's exception out unchanged.

Python values are one `Value` datatype (`NoneV` is `None`). Keyword arguments,
option dictionaries and metadata records are `map<string, Value>`. Files are a
map from path to bytes. Every external collaborator is a function-typed
parameter returning a `Result`, whose `Failure` carries the exception: opening
a dataset, reading it, writing a GeoTIFF, `reproject` and
`reproject_and_fuse`. The last two write into an array they are handed, so
their parameters return only the cells they write, as a map from flat cell
index to value. Which dtype names numpy understands is a predicate
parameter as well.

Modules: `Wrappers` (Option/Result), `Decimal` (printing and parsing EPSG
codes), `Geometry` (Affine, CRS, GeoBox), `Values`, `Arrays` (`np.full`),
`Metadata` (`rio_geobox`), `Writer` (`write_gtiff`), `Readers` (`dc_read`,
`rio_slurp_reproject`, `rio_slurp_read`), `Binding` (Python argument binding)
and `Dispatch` (`rio_slurp`).

## Model

| member | source | states |
|---|---|---|
| `Decimal.ParseShow` | datacube/testutils/io.py:113 | Printing an EPSG code in decimal and parsing it back gives the code again. |
| `Geometry.DcCrsFromRio` | datacube/testutils/io.py:109-114 | A CRS with an EPSG code becomes a spec whose EPSG code is that code, printed in plain decimal without a leading zero. A CRS without one becomes its WKT. |
| `Metadata.RioGeobox` | datacube/testutils/io.py:117-127 | No grid iff `crs` or `transform` is missing. Otherwise: KeyError for a missing `height`, then a missing `width`; AttributeError when `crs` is not a CRS object; success iff all four values have the right kind. A grid produced has the record's width, height and transform, and the converted CRS. |
| `Metadata.Annotate` | datacube/testutils/io.py:104-105 | The record gains exactly the grid key and `path`, and keeps every other entry. The grid key is None iff `crs` or `transform` is missing; a grid stored there agrees with the record's height, width, transform and CRS. Any error from `rio_geobox` propagates. |
| `Arrays.Full` | datacube/testutils/io.py:34 | `np.full` gives an array of the requested shape and dtype whose every cell is the fill value. |
| `Arrays.OverwriteKeepsFill` | datacube/testutils/io.py:34-36 | An array written into in place stays well formed, every cell the writer did not touch keeps the fill, and writing nothing leaves the array as it was. |
| `Arrays.FullCanvasCell` | datacube/testutils/io.py:147 | Every pixel `(row, col)` of a full `h x w` canvas is the fill value. |
| `Writer.Range` | datacube/testutils/io.py:62 | `range(lo, hi)` has `hi - lo` elements and element `i` is `lo + i`. |
| `Writer.SplitShape` | datacube/testutils/io.py:56-64 | Succeeds iff the array is 2-D or 3-D, else ValueError. Width and height are the last two axes. A 2-D array is count 1 and band 1. A 3-D array has count `n` with band indices `1..n`. |
| `Writer.BandsAreOneToCount` | datacube/testutils/io.py:56-62 | The written band indices are exactly `1..count`, strictly increasing. |
| `Writer.PrepareTarget` | datacube/testutils/io.py:69-73 | Fails with "File exists" iff the target exists and overwrite is off. On success the target is absent and every other file is unchanged. |
| `Writer.MakeTransform` | datacube/testutils/io.py:75-79 | The transform maps pixel `(col, row)` to `(tx + sx*col, ty + sy*row)`. |
| `Writer.WriteOptions` | datacube/testutils/io.py:81-98 | Every option key holds what the layered reference gives: the caller's value, else nodata when it is set, else the tiling value when a block size is given, else the default. |
| `Writer.CallerOptionsWin` | datacube/testutils/io.py:98 | Any key the caller passes ends up with the caller's value. |
| `Writer.DefaultsKept` | datacube/testutils/io.py:87-88 | Unless overridden, the predictor is 2 and compression is DEFLATE. |
| `Writer.NodataOnlyWhenSet` | datacube/testutils/io.py:95-96 | Unless overridden, a `nodata` option is present iff nodata is not None, and it holds that value. |
| `Writer.TilesWithinExtent` | datacube/testutils/io.py:90-93 | With a block size: `tiled` is true, and `blockxsize`/`blockysize` are `min(blocksize, w/h)`, never exceeding the image. Without one, no tiling key is added. |
| `Writer.WriteGTiff` | datacube/testutils/io.py:39-106 | A wrong dimensionality raises ValueError with the files untouched, whether or not the target exists. An existing target without overwrite raises "File exists" with the files untouched. A `driver` among the extra options repeats the keyword the library is called with: TypeError, after the target is deleted and before anything is written. Otherwise the writer receives the computed request. If it fails, the target stays deleted. If it succeeds, the target holds the new bytes and the record gets the grid and path. No other file ever changes. |
| `Readers.DcReadRequest` | datacube/testutils/io.py:21-34 | The grid is the one given, else the file's. The dtype is the one given, else the file's. The fill is the given nodata, else the file's, else 0, and never None. Succeeds iff the dtype is a name numpy knows, else TypeError. The canvas has the grid's shape and is filled with it. Open errors propagate. |
| `Readers.DcRead` | datacube/testutils/io.py:21-36 | Open errors propagate, then the TypeError for a dtype numpy does not know, then a fuse error; otherwise the call succeeds. The result is the canvas fused into: it has the grid's shape (given, else the file's) and the chosen dtype, and each cell holds what the fuse wrote there, else the resolved nodata. |
| `Readers.ReprojectPlanFor` | datacube/testutils/io.py:140-153 | IndexError when the dtype must default but the file has no band. AttributeError when the target is not a grid. TypeError when the dtype is not a name numpy knows. Otherwise the canvas has `gbox.shape` and the chosen dtype, and is filled with the resolved nodata. The resampler is asked for band 1 with that nodata, the grid's transform and CRS string, and the caller's options. |
| `Readers.SlurpReproject` | datacube/testutils/io.py:130-160 | Errors come out in step order: opening, planning (including the unknown-dtype TypeError), a TypeError when `**kw` repeats `dst_transform` or `dst_crs` (a `dst_nodata` keyword binds to the parameter of that name, so a call never leaves one in `**kw`; the model would treat one as a clash too), resampling, then `rio_geobox`; when every step succeeds, so does the call. The pixels have `gbox.shape` and the chosen dtype, and each cell holds what `reproject` wrote there, else the resolved nodata. The record keeps the source's entries and adds exactly `src_gbox` (derived from the source), `path` and `gbox` (the requested grid). |
| `Readers.ReadOptions` | datacube/testutils/io.py:171-172 | `out_shape` is passed on iff it is not None. Every other option is the caller's, unchanged. |
| `Readers.SlurpRead` | datacube/testutils/io.py:163-179 | Errors come out in step order: opening, reading, then `rio_geobox`; when every step succeeds, so does the call. A single-band file reads band 1 alone and any other file reads all bands, with the read options; the pixels are what that read gives. The record keeps the source's entries and adds exactly `gbox` (None iff `crs` or `transform` is missing) and `path`. |
| `Readers.SameCanvas` | datacube/testutils/io.py:23-34 | Given the same grid, dtype, nodata and file, `dc_read` pre-fills the same canvas as `rio_slurp_reproject` (lines 140-147). |
| `Binding.BindFrom` | datacube/testutils/io.py:197-199 | Binding parameters `i..` succeeds iff each one gets a value and none is given twice. Each bound value is its positional argument, else its keyword, else its default. |
| `Binding.Bind` | datacube/testutils/io.py:192-199 | Forwarding `*args, **kw` to a reader binds cleanly iff not too many positionals, none twice, none missing; else TypeError. Each parameter gets its value. Every other keyword is left for `**kw`. |
| `Dispatch.ForwardToRead` | datacube/testutils/io.py:163 | The call binds to `rio_slurp_read(fname, out_shape=None, **kw)` iff there is at most one positional argument, `out_shape` is not also a keyword, and `fname` is not a keyword; else TypeError. When it binds, the result is the plain read with the positional, else keyword, else None `out_shape` and the other keywords. |
| `Dispatch.ForwardToReproject` | datacube/testutils/io.py:130 | The call binds to `rio_slurp_reproject(fname, gbox, dtype=None, dst_nodata=None, **kw)` iff there are at most three positionals, a grid is given, and no parameter, `fname` included, is given twice; else TypeError. When it binds, the result is the reprojecting read with those three values and every other keyword. |
| `Dispatch.Slurp` | datacube/testutils/io.py:182-199 | `fname` given twice is a TypeError. With a grid supplied (first positional, or the `gbox` keyword with no positionals), the result is the reprojecting read of the bound arguments, or TypeError when they do not bind. Without one, it is the plain read of the bound arguments, or TypeError. |
| `Dispatch.PlainReadRoute` | datacube/testutils/io.py:190-199 | With no grid, `rio_slurp(fname, **kw)` is `rio_slurp_read` at the native shape, and `rio_slurp(fname, shape, **kw)` reads at that shape. |
| `Dispatch.SlurpOntoGrid` | datacube/testutils/io.py:196-197 | A successful `rio_slurp(fname, gbox, ...)` gives pixels of `gbox.shape` and reports that grid. |

## Left out

- Raster I/O is not modelled. Opening, reading and writing with rasterio,
  `dst.meta`, and the file-handle scoping of the `with` blocks are foreign
  library calls. They appear only as function-typed parameters.
- Resampling is not modelled. `rasterio.warp.reproject` and
  `reproject_and_fuse` are opaque steps. They receive the pre-filled canvas and
  the request arguments, and give back the cells they write into it. Which
  cells they write, and with what values, is theirs to decide.
- GeoBox, CRS and Affine internals are not modelled, and neither is
  `rdr_geobox`. The datacube reader's grid is an input field, and so is its
  nodata: how `RasterFileDataSource` applies `fallback_nodata` lives in a
  storage module that is not part of this model.
- Pixel-level round trips (write then read back) depend on the GeoTIFF codec.
  They are not stated.
- `str(gbox.crs)` is taken to be the CRS's specification string. The datacube
  `CRS` constructor is taken to keep its specification as given.
- `Arrays.Full` does not cast the fill value to the dtype, as numpy does: the
  canvas cells hold the fill value as given, and a fill numpy cannot cast is
  not reported.
- numpy's registry of dtype names is a parameter (`Readers.DTypes`). A dtype
  argument that is not a string, or a name the registry does not know, is a
  TypeError. numpy dtype objects are not distinguished from their names.
- The parameter names of `rasterio.open` (`fp`, `mode`) and of
  `rasterio.warp.reproject` (`source`, `destination`) are not part of this
  model. A caller's keyword that repeats one of them is handed to the opaque
  step instead of raising TypeError. The keywords the code itself passes
  explicitly (`driver`; `dst_nodata`, `dst_transform`, `dst_crs`) are modelled.
- `Path(fname)` normalisation is not modelled; paths are compared as strings.
- `Readers.SlurpRead` and `Readers.SlurpReproject` store the path as a `PathV`
  whatever the caller passed. The code stores the caller's `fname` unchanged,
  so a `str` stays a `str` there; only `write_gtiff` converts it to a `Path`.
- `Writer.WriteGTiff` does not model partial files. When the writer fails, the
  model assumes it left no file at the target; the real backend may leave a
  partial one.
- `Metadata.RioGeobox` stands in for the external GeoBox constructor's failures
  with `BadMeta`. That error is raised for a `height`/`width` that is not a
  non-negative int, and for a `transform` that is not an affine transform.
- `Metadata.RioGeobox` returns no grid only when the `crs` key or the
  `transform` key is absent, as the code does. It does not return no grid for a
  `crs` entry that is None. rasterio records always carry a `crs` entry, which
  is None for a file without one, and the code then raises AttributeError on
  `None.is_epsg_code`; the model raises it too.
- `Readers.ReprojectPlanFor` takes `rasterio.band(src, 1)` to succeed. Its
  IndexError for a file with no band stands for the failure of reading the
  first band's dtype; a failure of `rasterio.band` itself is not modelled.
- Python default argument values are not modelled. These are `crs='epsg:3857'`,
  `resolution=(10, -10)`, `offset=(0.0, 0.0)` and `resampling='nearest'`; every
  parameter is explicit.
- `blocksize` is modelled as an optional int.
- `Binding.Bind` does not reproduce Python's exact TypeError messages, or which
  message is chosen when several problems occur at once.

=== FILE: arrays.dfy ===
/** In-memory pixel arrays, flattened in row-major order, and `np.full`. */
module Arrays {
  import opened Values

  /** An n-dimensional array: its dtype name, its shape and its cells. */
  datatype Array = Array(dtype: string, shape: seq<nat>, cells: seq<Value>)

  /** The number of cells an array of the given shape holds. */
  function Product(shape: seq<nat>): nat
    decreases |shape|
  {
    if |shape| == 0 then 1 else shape[0] * Product(shape[1..])
  }

  predicate WellFormed(a: Array) {
    |a.cells| == Product(a.shape)
  }

  predicate FilledWith(a: Array, fill: Value) {
    forall i :: 0 <= i < |a.cells| ==> a.cells[i] == fill
  }

  /** The cell at `(row, col)` of a 2-D array. */
  function At(a: Array, row: nat, col: nat): Value
    requires WellFormed(a) && |a.shape| == 2
    requires row < a.shape[0] && col < a.shape[1]
  {
    ProductOfPair(a.shape);
    CellIndexInRange(a.shape[0], a.shape[1], row, col);
    a.cells[row * a.shape[1] + col]
  }

  lemma ProductOfPair(shape: seq<nat>)
    requires |shape| == 2
    ensures Product(shape) == shape[0] * shape[1]
  {
    var tail := shape[1..];
    assert Product(tail) == tail[0] * Product(tail[1..]);
    assert tail[1..] == [];
  }

  lemma CellIndexInRange(h: nat, w: nat, row: nat, col: nat)
    requires row < h && col < w
    ensures row * w + col < h * w
  {
    assert row * w <= (h - 1) * w;
  }

  /** `np.full(shape, fill, dtype)`: a fresh array of that shape and dtype whose
      every cell is `fill`. */
  function Full(shape: seq<nat>, fill: Value, dtype: string): (a: Array)
    ensures WellFormed(a) && a.shape == shape && a.dtype == dtype
    ensures FilledWith(a, fill)
  {
    Array(dtype, shape, seq(Product(shape), _ => fill))
  }

  /** The array after an external step has written `written` into it in
      place: a cell it wrote holds the written value, every other cell keeps
      its own, and the dtype and shape cannot change. */
  function Overwrite(a: Array, written: map<nat, Value>): (b: Array)
    ensures b.dtype == a.dtype && b.shape == a.shape && |b.cells| == |a.cells|
    ensures forall i :: 0 <= i < |b.cells| ==> b.cells[i] == (if i in written then written[i] else a.cells[i])
  {
    Array(a.dtype, a.shape, seq(|a.cells|, i requires 0 <= i < |a.cells| =>
                                  if i in written then written[i] else a.cells[i]))
  }

  /** Writing into a filled canvas leaves it well formed, and every cell the
      writer did not touch still holds the fill. */
  lemma OverwriteKeepsFill(a: Array, fill: Value, written: map<nat, Value>)
    requires WellFormed(a) && FilledWith(a, fill)
    ensures WellFormed(Overwrite(a, written))
    ensures forall i :: 0 <= i < |a.cells| && i !in written ==> Overwrite(a, written).cells[i] == fill
    ensures written == map[] ==> Overwrite(a, written) == a
  {
    if written == map[] {
      assert Overwrite(a, written).cells == a.cells;
    }
  }

  /** Every pixel of a full 2-D canvas carries the fill value. */
  lemma FullCanvasCell(h: nat, w: nat, fill: Value, dtype: string, row: nat, col: nat)
    requires row < h && col < w
    ensures At(Full([h, w], fill, dtype), row, col) == fill
  {
    ProductOfPair([h, w]);
    CellIndexInRange(h, w, row, col);
  }
}

=== FILE: binding.dfy ===
/** Python's binding of a call's positional and keyword arguments to a
    function's named parameters followed by `**kw`. This is what happens when
    `rio_slurp` forwards `*args, **kw` to one of the two readers. */
module Binding {
  import opened Wrappers
  import opened Values

  /** A named parameter with its default; `None` for a required one. */
  datatype Param = Param(name: string, default: Option<Value>)

  /** The value bound to each named parameter, and what is left for `**kw`. */
  datatype Bound = Bound(values: map<string, Value>, rest: Kwargs)

  ghost predicate DistinctNames(ps: seq<Param>) {
    forall i, j :: 0 <= i < j < |ps| ==> ps[i].name != ps[j].name
  }

  function Names(ps: seq<Param>): set<string> {
    set i | 0 <= i < |ps| :: ps[i].name
  }

  /** The names of parameters `i..`. */
  function NamesFrom(ps: seq<Param>, i: nat): set<string>
    requires i <= |ps|
    decreases |ps| - i
  {
    if i == |ps| then {} else {ps[i].name} + NamesFrom(ps, i + 1)
  }

  lemma {:induction false} NamesFromIsNames(ps: seq<Param>, i: nat)
    requires i <= |ps|
    ensures NamesFrom(ps, i) == set j | i <= j < |ps| :: ps[j].name
    decreases |ps| - i
  {
    if i < |ps| {
      NamesFromIsNames(ps, i + 1);
      assert (set j | i <= j < |ps| :: ps[j].name) == {ps[i].name} + (set j | i + 1 <= j < |ps| :: ps[j].name);
    }
  }

  /** The parameter is given both positionally and by keyword. */
  predicate Conflict(ps: seq<Param>, args: seq<Value>, kw: Kwargs, i: nat)
    requires i < |ps|
  {
    i < |args| && ps[i].name in kw
  }

  /** The value parameter `i` receives: its positional argument, else its
      keyword argument, else its default; `None` when it has none of them. */
  function ArgFor(ps: seq<Param>, args: seq<Value>, kw: Kwargs, i: nat): Option<Value>
    requires i < |ps|
  {
    if i < |args| then Some(args[i])
    else if ps[i].name in kw then Some(kw[ps[i].name])
    else ps[i].default
  }

  /** The call binds cleanly: not too many positional arguments, no parameter
      given twice, none missing. */
  ghost predicate Binds(ps: seq<Param>, args: seq<Value>, kw: Kwargs) {
    && |args| <= |ps|
    && forall i :: 0 <= i < |ps| ==> ArgFor(ps, args, kw, i).Some? && !Conflict(ps, args, kw, i)
  }

  /** Binds parameters `i..` of `ps`. */
  function BindFrom(ps: seq<Param>, args: seq<Value>, kw: Kwargs, i: nat): (r: Result<map<string, Value>, Error>)
    requires i <= |ps| && DistinctNames(ps)
    ensures r.Success? <==> forall j :: i <= j < |ps| ==> ArgFor(ps, args, kw, j).Some? && !Conflict(ps, args, kw, j)
    ensures r.Failure? ==> r.error.TypeError?
    ensures r.Success? ==> r.value.Keys == NamesFrom(ps, i)
    ensures r.Success? ==> forall j :: i <= j < |ps| ==>
              ps[j].name in r.value && r.value[ps[j].name] == ArgFor(ps, args, kw, j).value
    decreases |ps| - i
  {
    if i == |ps| then Success(map[])
    else if Conflict(ps, args, kw, i) then Failure(TypeError("got multiple values for argument '" + ps[i].name + "'"))
    else match ArgFor(ps, args, kw, i)
      case None => Failure(TypeError("missing required argument '" + ps[i].name + "'"))
      case Some(v) =>
        match BindFrom(ps, args, kw, i + 1)
        case Failure(e) => Failure(e)
        case Success(m) =>
          assert forall j :: i < j < |ps| ==> ps[j].name != ps[i].name;
          Success(m[ps[i].name := v])
  }

  /** Binds a call's arguments to `ps` followed by `**kw`, or raises the
      TypeError Python raises. */
  function Bind(ps: seq<Param>, args: seq<Value>, kw: Kwargs): (r: Result<Bound, Error>)
    requires DistinctNames(ps)
    ensures r.Success? <==> Binds(ps, args, kw)
    ensures r.Failure? ==> r.error.TypeError?
    ensures r.Success? ==> r.value.values.Keys == Names(ps)
    ensures r.Success? ==> forall i :: 0 <= i < |ps| ==> r.value.values[ps[i].name] == ArgFor(ps, args, kw, i).value
    ensures r.Success? ==> r.value.rest == kw - Names(ps)
  {
    if |args| > |ps| then Failure(TypeError("too many positional arguments"))
    else
      var values :- BindFrom(ps, args, kw, 0);
      NamesFromIsNames(ps, 0);
      Success(Bound(values, kw - Names(ps)))
  }
}

=== FILE: decimal.dfy ===
/** Decimal rendering of natural numbers, as Python's `'{}'.format(n)`
    prints an int, together with the parser that reads it back. */
module Decimal {
  import opened Wrappers

  predicate IsDigit(c: char) {
    '0' <= c <= '9'
  }

  function DigitChar(d: nat): (c: char)
    requires d < 10
    ensures IsDigit(c)
    ensures c as int - '0' as int == d
  {
    ('0' as int + d) as char
  }

  /** The decimal digits of `n`, most significant first, with no leading zero. */
  function Show(n: nat): (s: string)
    ensures 1 <= |s|
    ensures forall i :: 0 <= i < |s| ==> IsDigit(s[i])
    ensures |s| > 1 ==> s[0] != '0'
    decreases n
  {
    if n < 10 then [DigitChar(n)] else Show(n / 10) + [DigitChar(n % 10)]
  }

  /** The number a non-empty string of decimal digits denotes; `None` for
      the empty string and for any string holding a non-digit. */
  function Parse(s: string): (r: Option<nat>)
    ensures r.Some? <==> 1 <= |s| && forall i :: 0 <= i < |s| ==> IsDigit(s[i])
    decreases |s|
  {
    if |s| == 0 || !IsDigit(s[|s| - 1]) then None
    else if |s| == 1 then Some(s[0] as int - '0' as int)
    else
      match Parse(s[..|s| - 1])
      case None => None
      case Some(prefix) => Some(prefix * 10 + (s[|s| - 1] as int - '0' as int))
  }

  /** Reading back what `Show` printed gives the number again. */
  lemma {:induction false} ParseShow(n: nat)
    ensures Parse(Show(n)) == Some(n)
    decreases n
  {
    if n >= 10 {
      var s := Show(n);
      assert s == Show(n / 10) + [DigitChar(n % 10)];
      assert s[..|s| - 1] == Show(n / 10);
      ParseShow(n / 10);
    }
  }
}

=== FILE: dispatch.dfy ===
/** `rio_slurp`: picks the reprojecting read when a grid is supplied, as the
    first positional argument or as the `gbox` keyword with no positional
    arguments, and the plain read otherwise. It then forwards its arguments
    to the chosen reader. */
module Dispatch {
  import opened Wrappers
  import opened Values
  import opened Geometry
  import opened Metadata
  import opened Arrays
  import opened Readers
  import opened Binding

  /** `rio_slurp_read(fname, out_shape=None, **kw)` after `fname`. */
  const ReadParams: seq<Param> := [Param("out_shape", Some(NoneV))]

  /** `rio_slurp_reproject(fname, gbox, dtype=None, dst_nodata=None, **kw)` after `fname`. */
  const ReprojectParams: seq<Param> :=
    [Param("gbox", None), Param("dtype", Some(NoneV)), Param("dst_nodata", Some(NoneV))]

  /** The error Python raises when `**kw` also holds the file name. */
  const FnameTwiceMessage: string := "got multiple values for argument 'fname'"

  datatype Route = ToReproject | ToRead

  /** A grid is supplied: as the first positional argument, or as the `gbox`
      keyword when there is no positional argument. */
  predicate GridSupplied(args: seq<Value>, kw: Kwargs) {
    if |args| == 0 then "gbox" in kw else args[0].GeoBoxV?
  }

  /** The reader a call is routed to. */
  function RouteOf(args: seq<Value>, kw: Kwargs): (r: Route)
    ensures r == ToReproject <==> GridSupplied(args, kw)
  {
    if |args| == 0 then
      if "gbox" in kw then ToReproject else ToRead
    else if args[0].GeoBoxV? then ToReproject
    else ToRead
  }

  /** What an optional reader parameter at position `i` receives from a call:
      its positional argument, else its keyword, else its default `None`. */
  function Given(args: seq<Value>, kw: Kwargs, i: nat, name: string): Value {
    if i < |args| then args[i] else if name in kw then kw[name] else NoneV
  }

  /** `rio_slurp_read(fname, out_shape=None, **kw)` accepts the call: at most
      one positional argument, and neither `fname` nor `out_shape` given
      twice. */
  predicate ReadBinds(args: seq<Value>, kw: Kwargs) {
    && "fname" !in kw
    && (|args| == 0 || (|args| == 1 && "out_shape" !in kw))
  }

  /** `rio_slurp_reproject(fname, gbox, dtype=None, dst_nodata=None, **kw)`
      accepts the call: at most three positional arguments, a grid given,
      and no parameter, `fname` included, given both positionally and by
      keyword. */
  predicate ReprojectBinds(args: seq<Value>, kw: Kwargs) {
    && "fname" !in kw
    && |args| <= 3
    && (|args| > 0 || "gbox" in kw)
    && !(|args| > 0 && "gbox" in kw)
    && !(|args| > 1 && "dtype" in kw)
    && !(|args| > 2 && "dst_nodata" in kw)
  }

  /** `rio_slurp_read(fname, *args, **kw)`. */
  function ForwardToRead(fname: Path, args: seq<Value>, kw: Kwargs,
                         open: Path -> Result<Dataset, Error>,
                         read: (Dataset, ReadRequest) -> Result<Array, Error>): (r: Result<Slurped, Error>)
    ensures !ReadBinds(args, kw) ==> r.Failure? && r.error.TypeError?
    ensures ReadBinds(args, kw) ==>
              r == SlurpRead(fname, Given(args, kw, 0, "out_shape"), kw - {"out_shape"}, open, read)
  {
    assert ReadParams[0].name == "out_shape";
    assert Names(ReadParams) == {"out_shape"};
    assert Binds(ReadParams, args, kw) && "fname" !in kw <==> ReadBinds(args, kw) by {
      assert ArgFor(ReadParams, args, kw, 0).Some?;
    }
    var _ :- if "fname" in kw then Failure(TypeError(FnameTwiceMessage)) else Success(());
    var b :- Bind(ReadParams, args, kw);
    assert b.values["out_shape"] == Given(args, kw, 0, "out_shape");
    SlurpRead(fname, b.values["out_shape"], b.rest, open, read)
  }

  /** `rio_slurp_reproject(fname, *args, **kw)`. */
  function ForwardToReproject(fname: Path, args: seq<Value>, kw: Kwargs,
                              open: Path -> Result<Dataset, Error>, known: DTypes,
                              warp: (Array, WarpRequest) -> Result<map<nat, Value>, Error>): (r: Result<Slurped, Error>)
    ensures !ReprojectBinds(args, kw) ==> r.Failure? && r.error.TypeError?
    ensures ReprojectBinds(args, kw) ==>
              r == SlurpReproject(fname, Given(args, kw, 0, "gbox"), Given(args, kw, 1, "dtype"),
                                  Given(args, kw, 2, "dst_nodata"), kw - {"gbox", "dtype", "dst_nodata"},
                                  open, known, warp)
  {
    var ps := ReprojectParams;
    assert ps[0].name == "gbox" && ps[1].name == "dtype" && ps[2].name == "dst_nodata";
    assert DistinctNames(ps);
    assert Names(ps) == {"gbox", "dtype", "dst_nodata"} by {
      assert forall i :: 0 <= i < 3 ==> ps[i].name in {"gbox", "dtype", "dst_nodata"};
      assert ps[0].name in Names(ps) && ps[1].name in Names(ps) && ps[2].name in Names(ps);
    }
    assert Binds(ps, args, kw) && "fname" !in kw <==> ReprojectBinds(args, kw) by {
      assert ArgFor(ps, args, kw, 1).Some? && ArgFor(ps, args, kw, 2).Some?;
      assert ArgFor(ps, args, kw, 0).Some? <==> |args| > 0 || "gbox" in kw;
    }
    var _ :- if "fname" in kw then Failure(TypeError(FnameTwiceMessage)) else Success(());
    var b :- Bind(ps, args, kw);
    assert b.values["gbox"] == Given(args, kw, 0, "gbox") by {
      assert ArgFor(ps, args, kw, 0).Some?;
    }
    assert b.values["dtype"] == Given(args, kw, 1, "dtype");
    assert b.values["dst_nodata"] == Given(args, kw, 2, "dst_nodata");
    SlurpReproject(fname, b.values["gbox"], b.values["dtype"], b.values["dst_nodata"], b.rest, open, known, warp)
  }

  /** `rio_slurp(fname, *args, **kw)`: the reprojecting read when a grid is
      supplied, the plain read otherwise, each called with the caller's
      arguments bound as Python binds them. */
  function Slurp(fname: Path, args: seq<Value>, kw: Kwargs,
                 open: Path -> Result<Dataset, Error>, known: DTypes,
                 read: (Dataset, ReadRequest) -> Result<Array, Error>,
                 warp: (Array, WarpRequest) -> Result<map<nat, Value>, Error>): (r: Result<Slurped, Error>)
    // `fname` given twice
    ensures "fname" in kw ==> r.Failure? && r.error.TypeError?
    // a supplied grid: the reprojecting read
    ensures "fname" !in kw && GridSupplied(args, kw) && !ReprojectBinds(args, kw) ==>
              r.Failure? && r.error.TypeError?
    ensures "fname" !in kw && GridSupplied(args, kw) && ReprojectBinds(args, kw) ==>
              r == SlurpReproject(fname, Given(args, kw, 0, "gbox"), Given(args, kw, 1, "dtype"),
                                  Given(args, kw, 2, "dst_nodata"), kw - {"gbox", "dtype", "dst_nodata"},
                                  open, known, warp)
    // no grid: the plain read
    ensures "fname" !in kw && !GridSupplied(args, kw) && !ReadBinds(args, kw) ==>
              r.Failure? && r.error.TypeError?
    ensures "fname" !in kw && !GridSupplied(args, kw) && ReadBinds(args, kw) ==>
              r == SlurpRead(fname, Given(args, kw, 0, "out_shape"), kw - {"out_shape"}, open, read)
  {
    if "fname" in kw then Failure(TypeError(FnameTwiceMessage))
    else
      match RouteOf(args, kw)
      case ToReproject => ForwardToReproject(fname, args, kw, open, known, warp)
      case ToRead => ForwardToRead(fname, args, kw, open, read)
  }

  // ------------------------------------------------------------ observable

  /** Without a grid, `rio_slurp` is the plain read: with no positional
      argument it reads at the native shape, and a single non-grid positional
      argument is the `out_shape`. */
  lemma PlainReadRoute(fname: Path, args: seq<Value>, kw: Kwargs,
                       open: Path -> Result<Dataset, Error>, known: DTypes,
                       read: (Dataset, ReadRequest) -> Result<Array, Error>,
                       warp: (Array, WarpRequest) -> Result<map<nat, Value>, Error>)
    requires "fname" !in kw && "gbox" !in kw && "out_shape" !in kw
    requires |args| == 0 || (|args| == 1 && !args[0].GeoBoxV?)
    ensures Slurp(fname, args, kw, open, known, read, warp)
            == SlurpRead(fname, if |args| == 0 then NoneV else args[0], kw, open, read)
  {
    assert kw - {"out_shape"} == kw;
  }

  /** Reading onto a supplied grid gives pixels of that grid's shape and
      reports that grid. */
  lemma SlurpOntoGrid(fname: Path, g: GeoBox, args: seq<Value>, kw: Kwargs,
                      open: Path -> Result<Dataset, Error>, known: DTypes,
                      read: (Dataset, ReadRequest) -> Result<Array, Error>,
                      warp: (Array, WarpRequest) -> Result<map<nat, Value>, Error>)
    requires |args| > 0 && args[0] == GeoBoxV(g)
    ensures var r := Slurp(fname, args, kw, open, known, read, warp);
            r.Success? ==> r.value.pixels.shape == g.Shape() && r.value.meta["gbox"] == GeoBoxV(g)
  {
  }
}

=== FILE: geometry.dfy ===
/** The geometric collaborators the helpers pass around: affine pixel-to-world
    transforms, the raster library's CRS objects, datacube's CRS and GeoBox.
    Their internals belong to external libraries; only the accessors the
    helpers use are modelled. */
module Geometry {
  import opened Wrappers
  import Decimal

  /** An affine transform `(a, b, c, d, e, f)`: pixel `(col, row)` lies at world
      `(a*col + b*row + c, d*col + e*row + f)`. */
  datatype Affine = Affine(a: real, b: real, c: real, d: real, e: real, f: real) {

    function Apply(col: real, row: real): (real, real) {
      (a * col + b * row + c, d * col + e * row + f)
    }
  }

  /** A CRS as the raster library reports it: an EPSG code when it has one,
      and its well-known text. */
  datatype RioCrs = RioCrs(epsg: Option<nat>, wkt: string) {

    predicate IsEpsgCode() {
      epsg.Some?
    }
  }

  /** A datacube CRS, built from (and printing as) its specification string. */
  datatype Crs = Crs(spec: string)

  const EpsgPrefix: string := "epsg:"

  /** The EPSG code an `epsg:<N>` specification names; `None` for any other string. */
  function EpsgOf(crs: Crs): Option<nat> {
    if |crs.spec| >= |EpsgPrefix| && crs.spec[..|EpsgPrefix|] == EpsgPrefix
    then Decimal.Parse(crs.spec[|EpsgPrefix|..])
    else None
  }

  /** Converts a raster-library CRS to a datacube CRS: `epsg:<code>` when the CRS
      has an EPSG code, its WKT otherwise. */
  function DcCrsFromRio(crs: RioCrs): (r: Crs)
    ensures crs.IsEpsgCode() ==> EpsgOf(r) == crs.epsg
    // the code is printed in plain decimal, without a leading zero
    ensures crs.IsEpsgCode() && |r.spec| > |EpsgPrefix| + 1 ==> r.spec[|EpsgPrefix|] != '0'
    ensures !crs.IsEpsgCode() ==> r.spec == crs.wkt
  {
    if crs.IsEpsgCode() then
      var digits := Decimal.Show(crs.epsg.value);
      Decimal.ParseShow(crs.epsg.value);
      assert (EpsgPrefix + digits)[|EpsgPrefix|..] == digits;
      Crs(EpsgPrefix + digits)
    else
      Crs(crs.wkt)
  }

  /** A pixel grid placed in the world: `shape` is `(height, width)`. */
  datatype GeoBox = GeoBox(width: nat, height: nat, transform: Affine, crs: Crs) {

    function Shape(): seq<nat> {
      [height, width]
    }
  }
}

=== FILE: metadata.dfy ===
/** Deriving a GeoBox from a raster library metadata record, and attaching
    the derived grid and the source path to that record. */
module Metadata {
  import opened Wrappers
  import opened Values
  import opened Geometry

  /** The metadata keys a grid is derived from. */
  const GridKeys: set<string> := {"height", "width", "transform", "crs"}

  predicate IsNat(v: Value) {
    v.IntV? && v.intValue >= 0
  }

  /** The record holds all four grid keys, each with a value of the kind the
      GeoBox and CRS constructors accept. */
  predicate WellKinded(meta: Kwargs) {
    && GridKeys <= meta.Keys
    && IsNat(meta["height"]) && IsNat(meta["width"])
    && meta["transform"].TransformV? && meta["crs"].RioCrsV?
  }

  /** The grid agrees with the record's height, width, transform and CRS. */
  predicate DescribedBy(g: GeoBox, meta: Kwargs) {
    && GridKeys <= meta.Keys
    && meta["height"] == IntV(g.height)
    && meta["width"] == IntV(g.width)
    && meta["transform"] == TransformV(g.transform)
    && meta["crs"].RioCrsV?
    && g.crs == DcCrsFromRio(meta["crs"].rioCrs)
  }

  /** `rio_geobox`: no grid when the record lacks `crs` or `transform`; otherwise
      the grid the record describes, or the error reading it raises. */
  function RioGeobox(meta: Kwargs): (r: Result<Option<GeoBox>, Error>)
    ensures r == Success(None) <==> "crs" !in meta || "transform" !in meta
    ensures "crs" in meta && "transform" in meta ==> (r.Success? <==> WellKinded(meta))
    ensures r.Success? && r.value.Some? ==> DescribedBy(r.value.value, meta)
    ensures "crs" in meta && "transform" in meta && "height" !in meta ==>
              r == Failure(KeyError("height"))
    ensures GridKeys - {"width"} <= meta.Keys && "width" !in meta ==>
              r == Failure(KeyError("width"))
    ensures GridKeys <= meta.Keys && !meta["crs"].RioCrsV? ==>
              r == Failure(AttributeError("is_epsg_code"))
  {
    if "crs" !in meta || "transform" !in meta then Success(None)
    else if "height" !in meta then Failure(KeyError("height"))
    else if "width" !in meta then Failure(KeyError("width"))
    else if !meta["crs"].RioCrsV? then Failure(AttributeError("is_epsg_code"))
    else if !IsNat(meta["width"]) then Failure(BadMeta("width"))
    else if !IsNat(meta["height"]) then Failure(BadMeta("height"))
    else if !meta["transform"].TransformV? then Failure(BadMeta("transform"))
    else
      var crs := DcCrsFromRio(meta["crs"].rioCrs);
      Success(Some(GeoBox(meta["width"].intValue, meta["height"].intValue,
                          meta["transform"].affine, crs)))
  }

  /** A derived grid as the Python value stored in a record. */
  function GridValue(g: Option<GeoBox>): (v: Value)
    ensures g.None? <==> v == NoneV
    ensures g.Some? ==> v == GeoBoxV(g.value)
  {
    match g
    case None => NoneV
    case Some(b) => GeoBoxV(b)
  }

  /** Stores the grid derived from `meta` under `gridKey` and the path under
      `path`, as `write_gtiff`, `rio_slurp_read` and `rio_slurp_reproject` do
      with the record the raster library returned. */
  function Annotate(meta: Kwargs, gridKey: string, path: Path): (r: Result<Kwargs, Error>)
    requires gridKey !in GridKeys && gridKey != "path"
    ensures r.Failure? <==> RioGeobox(meta).Failure?
    ensures r.Failure? ==> r.error == RioGeobox(meta).error
    ensures r.Success? ==> r.value.Keys == meta.Keys + {gridKey, "path"}
    ensures r.Success? ==> r.value["path"] == PathV(path)
    ensures r.Success? ==> forall k :: k in meta && k != gridKey && k != "path" ==> r.value[k] == meta[k]
    ensures r.Success? ==> (r.value[gridKey] == NoneV <==> "crs" !in meta || "transform" !in meta)
    ensures r.Success? && r.value[gridKey].GeoBoxV? ==> DescribedBy(r.value[gridKey].geobox, r.value)
  {
    var grid :- RioGeobox(meta);
    Success(meta[gridKey := GridValue(grid)]["path" := PathV(path)])
  }
}

=== FILE: readers.dfy ===
/** The readers: `dc_read`, `rio_slurp_reproject` and `rio_slurp_read`. Each
    one opens a raster through an external driver. The reprojecting readers
    first resolve the dtype and the nodata fill, then pre-fill a canvas of the
    target grid's shape before handing it to the external resampler. The
    drivers, the reader and the resampler are parameters. */
module Readers {
  import opened Wrappers
  import opened Values
  import opened Geometry
  import opened Arrays
  import opened Metadata

  /** The nodata precedence both reprojecting readers follow: the explicit
      value, else the source's nodata, else `0`. */
  function ResolveNodata(explicit: Value, source: Value): Value {
    if explicit != NoneV then explicit
    else if source != NoneV then source
    else IntV(0)
  }

  /** numpy's registry of dtype names: whether `np.full` understands a name. */
  type DTypes = string -> bool

  /** The dtype name `np.full` is given; anything but a name numpy knows is
      refused with a TypeError. */
  function DTypeName(dtype: Value, known: DTypes): (r: Result<string, Error>)
    ensures r.Success? <==> dtype.StrV? && known(dtype.str)
    ensures r.Success? ==> r.value == dtype.str
    ensures r.Failure? ==> r.error.TypeError?
  {
    if dtype.StrV? && known(dtype.str) then Success(dtype.str) else Failure(TypeError("data type not understood"))
  }

  // ---------------------------------------------------------------- dc_read

  /** The datacube data source a `dc_read` opens. */
  datatype DataSource = DataSource(path: Path, band: Value, fallbackNodata: Value)

  /** What the opened datacube reader reports: its dtype, its nodata (already
      falling back to the source's fallback nodata) and its grid. */
  datatype Reader = Reader(dtype: string, nodata: Value, geobox: GeoBox)

  /** The arguments `reproject_and_fuse` receives. */
  datatype FuseRequest = FuseRequest(sources: seq<DataSource>, canvas: Array, geobox: GeoBox,
                                     nodata: Value, resampling: Value)

  /** Everything `dc_read` decides before fusing: the grid (given, else the
      file's), the dtype (given, else the file's), the nodata (given, else the
      file's, else 0) and a canvas of the grid's shape filled with that nodata. */
  function DcReadRequest(path: Path, band: Value, gbox: Option<GeoBox>, resampling: Value, dtype: Value,
                         dstNodata: Value, fallbackNodata: Value,
                         open: DataSource -> Result<Reader, Error>, known: DTypes): (r: Result<FuseRequest, Error>)
    ensures var opening := open(DataSource(path, band, fallbackNodata));
            && (opening.Failure? ==> r == Failure(opening.error))
            && (opening.Success? ==>
                  var rdr := opening.value;
                  var wanted := if dtype == NoneV then StrV(rdr.dtype) else dtype;
                  && (r.Success? <==> wanted.StrV? && known(wanted.str))
                  && (r.Failure? ==> r.error.TypeError?)
                  && (r.Success? ==>
                        var q := r.value;
                        && q.sources == [DataSource(path, band, fallbackNodata)]
                        && q.geobox == (if gbox.Some? then gbox.value else rdr.geobox)
                        && q.nodata == ResolveNodata(dstNodata, rdr.nodata)
                        && q.nodata != NoneV
                        && q.canvas.shape == q.geobox.Shape()
                        && q.canvas.dtype == wanted.str
                        && WellFormed(q.canvas) && FilledWith(q.canvas, q.nodata)
                        && q.resampling == resampling))
  {
    var source := DataSource(path, band, fallbackNodata);
    var rdr :- open(source);
    var dtype := if dtype == NoneV then StrV(rdr.dtype) else dtype;
    var grid := if gbox.None? then rdr.geobox else gbox.value;
    var fill := if dstNodata == NoneV then rdr.nodata else dstNodata;
    var fill := if fill == NoneV then IntV(0) else fill;
    var name :- DTypeName(dtype, known);
    Success(FuseRequest([source], Full(grid.Shape(), fill, name), grid, fill, resampling))
  }

  /** `dc_read`: `reproject_and_fuse` writes into the pre-filled canvas in
      place (`fuse` gives the cells it writes), and that canvas is returned:
      it keeps the grid's shape and the chosen dtype, and every cell the
      fuse left alone still holds the fill. */
  function DcRead(path: Path, band: Value, gbox: Option<GeoBox>, resampling: Value, dtype: Value,
                  dstNodata: Value, fallbackNodata: Value,
                  open: DataSource -> Result<Reader, Error>, known: DTypes,
                  fuse: FuseRequest -> Result<map<nat, Value>, Error>): (r: Result<Array, Error>)
    ensures var q := DcReadRequest(path, band, gbox, resampling, dtype, dstNodata, fallbackNodata, open, known);
            && (q.Failure? ==> r == Failure(q.error))
            && (q.Success? && fuse(q.value).Failure? ==> r == Failure(fuse(q.value).error))
            && (q.Success? && fuse(q.value).Success? ==> r.Success?)
    ensures r.Success? ==>
              var rdr := open(DataSource(path, band, fallbackNodata)).value;
              var q := DcReadRequest(path, band, gbox, resampling, dtype, dstNodata, fallbackNodata, open, known);
              && open(DataSource(path, band, fallbackNodata)).Success?
              && q.Success? && fuse(q.value).Success?
              && r.value.shape == (if gbox.Some? then gbox.value else rdr.geobox).Shape()
              && r.value.dtype == (if dtype == NoneV then rdr.dtype else dtype.str)
              && WellFormed(r.value)
              && forall i :: 0 <= i < |r.value.cells| ==>
                   r.value.cells[i] == (if i in fuse(q.value).value then fuse(q.value).value[i]
                                        else ResolveNodata(dstNodata, rdr.nodata))
  {
    var q :- DcReadRequest(path, band, gbox, resampling, dtype, dstNodata, fallbackNodata, open, known);
    var written :- fuse(q);
    OverwriteKeepsFill(q.canvas, q.nodata, written);
    Success(Overwrite(q.canvas, written))
  }

  // ----------------------------------------------------- rio_slurp_reproject

  /** An opened raster-library dataset: band count, per-band dtypes, nodata
      and its metadata record. */
  datatype Dataset = Dataset(count: nat, dtypes: seq<string>, nodata: Value, meta: Kwargs)

  /** The arguments the raster library's `reproject` receives besides the canvas. */
  datatype WarpRequest = WarpRequest(band: nat, nodata: Value, transform: Affine, crs: string, options: Kwargs)

  datatype ReprojectPlan = ReprojectPlan(canvas: Array, warp: WarpRequest)

  /** An array read, with its annotated metadata record. */
  datatype Slurped = Slurped(pixels: Array, meta: Kwargs)

  /** Everything `rio_slurp_reproject` decides before resampling band 1 of
      `src` onto `gbox`. */
  function ReprojectPlanFor(gbox: Value, dtype: Value, dstNodata: Value, kw: Kwargs, src: Dataset, known: DTypes)
    : (r: Result<ReprojectPlan, Error>)
    // the dtype defaults to the first band's, which must then exist
    ensures dtype == NoneV && |src.dtypes| == 0 ==> r == Failure(IndexError)
    // the target must be a grid
    ensures (dtype != NoneV || |src.dtypes| > 0) && !gbox.GeoBoxV? ==> r == Failure(AttributeError("shape"))
    ensures (dtype != NoneV || |src.dtypes| > 0) && gbox.GeoBoxV? ==>
              var wanted := if dtype == NoneV then StrV(src.dtypes[0]) else dtype;
              && (r.Success? <==> wanted.StrV? && known(wanted.str))
              && (r.Failure? ==> r.error.TypeError?)
              && (r.Success? ==>
                    var g := gbox.geobox;
                    var p := r.value;
                    var fill := ResolveNodata(dstNodata, src.nodata);
                    && p.canvas.shape == g.Shape()
                    && p.canvas.dtype == wanted.str
                    && WellFormed(p.canvas) && FilledWith(p.canvas, fill)
                    && p.warp == WarpRequest(1, fill, g.transform, g.crs.spec, kw))
  {
    var dtype :- if dtype != NoneV then Success(dtype)
                 else if |src.dtypes| == 0 then Failure(IndexError)
                 else Success(StrV(src.dtypes[0]));
    var fill := if dstNodata == NoneV then src.nodata else dstNodata;
    var fill := if fill == NoneV then IntV(0) else fill;
    if !gbox.GeoBoxV? then Failure(AttributeError("shape"))
    else
      var name :- DTypeName(dtype, known);
      var g := gbox.geobox;
      Success(ReprojectPlan(Full(g.Shape(), fill, name), WarpRequest(1, fill, g.transform, g.crs.spec, kw)))
  }

  /** The keywords `rio_slurp_reproject` passes to `reproject` itself; the
      caller's `**kw` may not repeat them. */
  const WarpKeywords: set<string> := {"dst_nodata", "dst_transform", "dst_crs"}

  predicate ClashesWithWarp(kw: Kwargs) {
    exists k :: k in kw && k in WarpKeywords
  }

  /** `rio_slurp_reproject`: `reproject` writes band 1 of the file into the
      pre-filled canvas in place (`warp` gives the cells it writes), and that
      canvas is returned with the source's record annotated with its own grid
      (`src_gbox`), the path, and the requested grid (`gbox`). Errors come out
      in the order the steps run: opening, planning, the call of
      `reproject` (a repeated keyword), resampling, then `rio_geobox`. */
  function SlurpReproject(fname: Path, gbox: Value, dtype: Value, dstNodata: Value, kw: Kwargs,
                          open: Path -> Result<Dataset, Error>, known: DTypes,
                          warp: (Array, WarpRequest) -> Result<map<nat, Value>, Error>): (r: Result<Slurped, Error>)
    ensures open(fname).Failure? ==> r == Failure(open(fname).error)
    ensures open(fname).Success? ==>
              var src := open(fname).value;
              var plan := ReprojectPlanFor(gbox, dtype, dstNodata, kw, src, known);
              && (plan.Failure? ==> r == Failure(plan.error))
              // a keyword `reproject` is already given explicitly
              && (plan.Success? && ClashesWithWarp(kw) ==> r.Failure? && r.error.TypeError?)
              && (plan.Success? && !ClashesWithWarp(kw) ==>
                    var w := warp(plan.value.canvas, plan.value.warp);
                    && (w.Failure? ==> r == Failure(w.error))
                    && (w.Success? && RioGeobox(src.meta).Failure? ==> r == Failure(RioGeobox(src.meta).error))
                    && (w.Success? && RioGeobox(src.meta).Success? ==> r.Success?))
    // the pixels are the canvas, resampled in place
    ensures r.Success? ==>
              var src := open(fname).value;
              var plan := ReprojectPlanFor(gbox, dtype, dstNodata, kw, src, known);
              var px := r.value.pixels;
              && open(fname).Success? && gbox.GeoBoxV? && plan.Success? && !ClashesWithWarp(kw)
              && warp(plan.value.canvas, plan.value.warp).Success?
              && px.shape == gbox.geobox.Shape()
              && px.dtype == (if dtype == NoneV then src.dtypes[0] else dtype.str)
              && WellFormed(px)
              && var written := warp(plan.value.canvas, plan.value.warp).value;
                 forall i :: 0 <= i < |px.cells| ==>
                   px.cells[i] == (if i in written then written[i] else ResolveNodata(dstNodata, src.nodata))
    // the record
    ensures r.Success? ==>
              var src := open(fname).value;
              && r.value.meta.Keys == src.meta.Keys + {"src_gbox", "path", "gbox"}
              && r.value.meta["gbox"] == gbox
              && r.value.meta["path"] == PathV(fname)
              && RioGeobox(src.meta).Success?
              && r.value.meta["src_gbox"] == GridValue(RioGeobox(src.meta).value)
              && (forall k :: k in src.meta && k !in {"src_gbox", "path", "gbox"} ==> r.value.meta[k] == src.meta[k])
  {
    var src :- open(fname);
    var plan :- ReprojectPlanFor(gbox, dtype, dstNodata, kw, src, known);
    var _ :- if ClashesWithWarp(kw) then Failure(TypeError("got multiple values for keyword argument"))
             else Success(());
    var written :- warp(plan.canvas, plan.warp);
    OverwriteKeepsFill(plan.canvas, plan.warp.nodata, written);
    var meta :- Annotate(src.meta, "src_gbox", fname);
    Success(Slurped(Overwrite(plan.canvas, written), meta["gbox" := gbox]))
  }

  // ---------------------------------------------------------- rio_slurp_read

  /** How many bands to read: band 1 alone for a single-band file, else all. */
  datatype ReadRequest = ReadBand(index: nat, options: Kwargs) | ReadAll(options: Kwargs)

  /** The read options: the caller's, plus `out_shape` only when it is not None. */
  function ReadOptions(outShape: Value, kw: Kwargs): (o: Kwargs)
    ensures outShape != NoneV ==> "out_shape" in o && o["out_shape"] == outShape
    ensures outShape == NoneV ==> o == kw
    ensures forall k :: k != "out_shape" ==> (k in o <==> k in kw)
    ensures forall k :: k in o && k != "out_shape" ==> o[k] == kw[k]
  {
    if outShape != NoneV then kw["out_shape" := outShape] else kw
  }

  function ReadRequestFor(count: nat, options: Kwargs): (q: ReadRequest)
    ensures q.ReadBand? <==> count == 1
    ensures q.ReadBand? ==> q.index == 1
    ensures q.options == options
  {
    if count == 1 then ReadBand(1, options) else ReadAll(options)
  }

  /** `rio_slurp_read`: the array read, with the record annotated with the
      file's grid and the path. Errors come out in the order the steps run:
      opening, reading, then `rio_geobox`. */
  function SlurpRead(fname: Path, outShape: Value, kw: Kwargs,
                     open: Path -> Result<Dataset, Error>,
                     read: (Dataset, ReadRequest) -> Result<Array, Error>): (r: Result<Slurped, Error>)
    ensures open(fname).Failure? ==> r == Failure(open(fname).error)
    ensures open(fname).Success? ==>
              var src := open(fname).value;
              var options := ReadOptions(outShape, kw);
              // a single-band file reads band 1 alone, any other all bands
              var got := read(src, if src.count == 1 then ReadBand(1, options) else ReadAll(options));
              && (got.Failure? ==> r == Failure(got.error))
              && (got.Success? && RioGeobox(src.meta).Failure? ==> r == Failure(RioGeobox(src.meta).error))
              && (got.Success? && RioGeobox(src.meta).Success? ==> r.Success? && r.value.pixels == got.value)
    ensures r.Success? ==>
              var src := open(fname).value;
              && open(fname).Success?
              && r.value.meta.Keys == src.meta.Keys + {"gbox", "path"}
              && r.value.meta["path"] == PathV(fname)
              && RioGeobox(src.meta).Success?
              && r.value.meta["gbox"] == GridValue(RioGeobox(src.meta).value)
              && (r.value.meta["gbox"] == NoneV <==> "crs" !in src.meta || "transform" !in src.meta)
              && (forall k :: k in src.meta && k != "gbox" && k != "path" ==> r.value.meta[k] == src.meta[k])
  {
    var options := ReadOptions(outShape, kw);
    var src :- open(fname);
    var pixels :- read(src, ReadRequestFor(src.count, options));
    var meta :- Annotate(src.meta, "gbox", fname);
    Success(Slurped(pixels, meta))
  }

  // ------------------------------------------------------------- agreements

  /** `dc_read` and `rio_slurp_reproject` pre-fill the same canvas when they
      see the same grid, dtype, nodata and file. */
  lemma SameCanvas(path: Path, band: Value, g: GeoBox, resampling: Value, dtype: Value, dstNodata: Value,
                   fallbackNodata: Value, open: DataSource -> Result<Reader, Error>, known: DTypes,
                   kw: Kwargs, src: Dataset)
    requires open(DataSource(path, band, fallbackNodata)).Success?
    requires var rdr := open(DataSource(path, band, fallbackNodata)).value;
             |src.dtypes| > 0 && src.dtypes[0] == rdr.dtype && src.nodata == rdr.nodata
    requires DcReadRequest(path, band, Some(g), resampling, dtype, dstNodata, fallbackNodata, open, known).Success?
    ensures var plan := ReprojectPlanFor(GeoBoxV(g), dtype, dstNodata, kw, src, known);
            && plan.Success?
            && plan.value.canvas
               == DcReadRequest(path, band, Some(g), resampling, dtype, dstNodata, fallbackNodata, open, known).value.canvas
  {
  }
}

=== FILE: values.dfy ===
/** Python values as the helpers see them: arguments, option dictionaries,
    raster metadata records, and the exceptions they raise. */
module Values {
  import opened Geometry

  type Path = string

  /** A Python value. `NoneV` is Python's `None`. */
  datatype Value =
    | NoneV
    | BoolV(flag: bool)
    | IntV(intValue: int)
    | RealV(realValue: real)
    | StrV(str: string)
    | TupleV(items: seq<Value>)
    | TransformV(affine: Affine)
    | RioCrsV(rioCrs: RioCrs)
    | CrsV(crs: Crs)
    | GeoBoxV(geobox: GeoBox)
    | PathV(path: Path)

  /** Keyword arguments, option dictionaries and metadata records. */
  type Kwargs = map<string, Value>

  /** The exceptions the helpers raise or let through. `BadMeta(key)` stands for
      an external constructor (GeoBox, CRS) refusing the value under `key`. */
  datatype Error =
    | ValueError(message: string)
    | IOError(message: string)
    | KeyError(key: string)
    | IndexError
    | TypeError(message: string)
    | AttributeError(attribute: string)
    | BadMeta(key: string)
    | BackendError(message: string)
}

=== FILE: wrappers.dfy ===
/** `Option` and `Result`, with the three members Dafny's `:-` operator asks
    for, so a step that fails ends the computation with its failure. In this
    model a `Failure` holds the Python exception a helper raises, either its
    own or one it does not catch. */
module Wrappers {

  datatype Option<+T> = None | Some(value: T) {

    predicate IsFailure() {
      None?
    }

    function Extract(): T
      requires Some?
    {
      value
    }

    function PropagateFailure<U>(): Option<U>
      requires None?
    {
      None
    }
  }

  datatype Result<+R, +E> = Success(value: R) | Failure(error: E) {

    predicate IsFailure() {
      Failure?
    }

    function Extract(): R
      requires Success?
    {
      value
    }

    function PropagateFailure<U>(): Result<U, E>
      requires Failure?
    {
      Failure(error)
    }
  }
}

=== FILE: writer.dfy ===
/** `write_gtiff`: the decisions taken around the raster library's writer.
    It checks the array's dimensionality, splits its shape into a band layout,
    clears or refuses an existing target, builds the affine transform, and
    layers the creation options. Files are an abstract map from path to bytes.
    The library's writer is a parameter. */
module Writer {
  import opened Wrappers
  import opened Values
  import opened Geometry
  import opened Arrays
  import opened Metadata

  type Bytes = seq<bv8>

  /** The files that exist, with their contents. */
  type FileSystem = map<Path, Bytes>

  const NdimMessage: string := "Need 2d or 3d ndarray on input"
  const ExistsMessage: string := "File exists"
  const Driver: string := "GTiff"
  /** The error Python raises when `**rio_opts` repeats the `driver` keyword. */
  const DriverClashMessage: string := "got multiple values for keyword argument 'driver'"
  const DefaultPredictor: int := 2
  const DefaultCompress: string := "DEFLATE"

  /** The band argument handed to the writer: a single index for a 2-D array,
      a tuple of indices for a 3-D one. */
  datatype BandSel = OneBand(index: nat) | BandList(indices: seq<nat>)

  datatype Layout = Layout(width: nat, height: nat, count: nat, bands: BandSel)

  function BandIndices(bands: BandSel): seq<nat> {
    match bands
    case OneBand(i) => [i]
    case BandList(ix) => ix
  }

  /** Python's `range(lo, hi)`. */
  function Range(lo: nat, hi: nat): (r: seq<nat>)
    ensures |r| == if lo <= hi then hi - lo else 0
    ensures forall i :: 0 <= i < |r| ==> r[i] == lo + i
    decreases hi - lo
  {
    if lo >= hi then [] else [lo] + Range(lo + 1, hi)
  }

  /** Splits an array shape into width, height, band count and band indices:
      `(h, w)` is one band, `(n, h, w)` is bands `1..n`; any other
      dimensionality is a usage error. */
  function SplitShape(shape: seq<nat>): (r: Result<Layout, Error>)
    ensures r.Success? <==> |shape| == 2 || |shape| == 3
    ensures r.Failure? ==> r.error == ValueError(NdimMessage)
    ensures r.Success? ==> r.value.width == shape[|shape| - 1] && r.value.height == shape[|shape| - 2]
    ensures |shape| == 2 ==> r.value.count == 1 && r.value.bands == OneBand(1)
    ensures |shape| == 3 ==> r.value.count == shape[0] && r.value.bands.BandList?
    ensures r.Success? ==>
              var ix := BandIndices(r.value.bands);
              |ix| == r.value.count && forall i :: 0 <= i < |ix| ==> ix[i] == i + 1
  {
    if |shape| == 2 then Success(Layout(shape[1], shape[0], 1, OneBand(1)))
    else if |shape| == 3 then Success(Layout(shape[2], shape[1], shape[0], BandList(Range(1, shape[0] + 1))))
    else Failure(ValueError(NdimMessage))
  }

  /** The bands written are exactly `1..count`, each once, in increasing order. */
  lemma {:induction false} BandsAreOneToCount(shape: seq<nat>)
    requires SplitShape(shape).Success?
    ensures var layout := SplitShape(shape).value;
            var ix := BandIndices(layout.bands);
            && (forall i :: 0 <= i < |ix| ==> 1 <= ix[i] <= layout.count)
            && (forall k: int :: 1 <= k <= layout.count ==> k in ix)
            && (forall i, j :: 0 <= i < j < |ix| ==> ix[i] < ix[j])
  {
    var layout := SplitShape(shape).value;
    var ix := BandIndices(layout.bands);
    forall k: int | 1 <= k <= layout.count
      ensures k in ix
    {
      assert ix[k - 1] == k;
    }
  }

  /** The existence check: an existing target is removed when overwriting and
      refused otherwise. */
  function PrepareTarget(files: FileSystem, fname: Path, overwrite: bool): (r: Result<FileSystem, Error>)
    ensures r.Failure? <==> fname in files && !overwrite
    ensures r.Failure? ==> r.error == IOError(ExistsMessage)
    ensures r.Success? ==> r.value == files - {fname}
  {
    if fname in files then
      if overwrite then Success(files - {fname}) else Failure(IOError(ExistsMessage))
    else
      Success(files)
  }

  /** The transform for pixel size `(sx, sy)` and origin `(tx, ty)`: pixel
      `(col, row)` lands at `(tx + sx*col, ty + sy*row)`, so pixel `(0, 0)`
      sits at the origin. */
  function MakeTransform(resolution: (real, real), offset: (real, real)): (t: Affine)
    ensures forall col: real, row: real {:trigger t.Apply(col, row)} ::
              t.Apply(col, row) == (offset.0 + resolution.0 * col, offset.1 + resolution.1 * row)
  {
    AxisAlignedApply(resolution.0, resolution.1, offset.0, offset.1);
    Affine(resolution.0, 0.0, offset.0, 0.0, resolution.1, offset.1)
  }

  lemma AxisAlignedApply(sx: real, sy: real, tx: real, ty: real)
    ensures forall col: real, row: real {:trigger Affine(sx, 0.0, tx, 0.0, sy, ty).Apply(col, row)} ::
              Affine(sx, 0.0, tx, 0.0, sy, ty).Apply(col, row) == (tx + sx * col, ty + sy * row)
  {
    var t := Affine(sx, 0.0, tx, 0.0, sy, ty);
    forall col: real, row: real
      ensures t.Apply(col, row) == (tx + sx * col, ty + sy * row)
    {
      assert t.Apply(col, row).0 == sx * col + 0.0 * row + tx;
      assert t.Apply(col, row).1 == 0.0 * col + sy * row + ty;
      assert 0.0 * row == 0.0 && 0.0 * col == 0.0;
    }
  }

  function Min(a: int, b: int): int {
    if a <= b then a else b
  }

  function Lookup(o: Kwargs, k: string): Option<Value> {
    if k in o then Some(o[k]) else None
  }

  /** The options every write starts from. */
  function BaseOptions(layout: Layout, dtype: string, crs: Value, transform: Affine): Kwargs {
    map[
      "width" := IntV(layout.width),
      "height" := IntV(layout.height),
      "count" := IntV(layout.count),
      "dtype" := StrV(dtype),
      "crs" := crs,
      "transform" := TransformV(transform),
      "predictor" := IntV(DefaultPredictor),
      "compress" := StrV(DefaultCompress)
    ]
  }

  function WithTiling(o: Kwargs, blocksize: Option<int>, layout: Layout): Kwargs {
    match blocksize
    case None => o
    case Some(b) =>
      o["tiled" := BoolV(true)]["blockxsize" := IntV(Min(b, layout.width))]["blockysize" := IntV(Min(b, layout.height))]
  }

  function WithNodata(o: Kwargs, nodata: Value): Kwargs {
    if nodata != NoneV then o["nodata" := nodata] else o
  }

  /** The default value of each option key. */
  function DefaultOption(k: string, layout: Layout, dtype: string, crs: Value, transform: Affine): Option<Value> {
    if k == "width" then Some(IntV(layout.width))
    else if k == "height" then Some(IntV(layout.height))
    else if k == "count" then Some(IntV(layout.count))
    else if k == "dtype" then Some(StrV(dtype))
    else if k == "crs" then Some(crs)
    else if k == "transform" then Some(TransformV(transform))
    else if k == "predictor" then Some(IntV(DefaultPredictor))
    else if k == "compress" then Some(StrV(DefaultCompress))
    else None
  }

  /** The tiling keys a block size brings in, each edge clamped to the image. */
  function TileOption(k: string, blocksize: Option<int>, layout: Layout): Option<Value> {
    match blocksize
    case None => None
    case Some(b) =>
      if k == "tiled" then Some(BoolV(true))
      else if k == "blockxsize" then Some(IntV(Min(b, layout.width)))
      else if k == "blockysize" then Some(IntV(Min(b, layout.height)))
      else None
  }

  /** What each option key ends up holding, key by key: the caller's extra
      option if given; else nodata when it is set; else the tiling value when a
      block size is given; else the default. */
  function ExpectedOption(k: string, layout: Layout, dtype: string, crs: Value, transform: Affine,
                          nodata: Value, blocksize: Option<int>, extra: Kwargs): Option<Value>
  {
    if k in extra then Some(extra[k])
    else if k == "nodata" && nodata != NoneV then Some(nodata)
    else if TileOption(k, blocksize, layout).Some? then TileOption(k, blocksize, layout)
    else DefaultOption(k, layout, dtype, crs, transform)
  }

  lemma BaseLookup(layout: Layout, dtype: string, crs: Value, transform: Affine)
    ensures forall k :: Lookup(BaseOptions(layout, dtype, crs, transform), k) == DefaultOption(k, layout, dtype, crs, transform)
  {
  }

  lemma TilingLookup(o: Kwargs, blocksize: Option<int>, layout: Layout)
    ensures forall k :: Lookup(WithTiling(o, blocksize, layout), k)
                        == if TileOption(k, blocksize, layout).Some? then TileOption(k, blocksize, layout) else Lookup(o, k)
  {
  }

  lemma NodataLookup(o: Kwargs, nodata: Value)
    ensures forall k :: Lookup(WithNodata(o, nodata), k) == if k == "nodata" && nodata != NoneV then Some(nodata) else Lookup(o, k)
  {
  }

  lemma OverrideLookup(o: Kwargs, extra: Kwargs)
    ensures forall k :: Lookup(o + extra, k) == if k in extra then Some(extra[k]) else Lookup(o, k)
  {
  }

  /** The creation options: defaults, then tiling, then nodata, then the
      caller's extra options overriding any key. */
  function WriteOptions(layout: Layout, dtype: string, crs: Value, transform: Affine,
                        nodata: Value, blocksize: Option<int>, extra: Kwargs): (o: Kwargs)
    ensures forall k :: Lookup(o, k) == ExpectedOption(k, layout, dtype, crs, transform, nodata, blocksize, extra)
  {
    var base := BaseOptions(layout, dtype, crs, transform);
    var tiled := WithTiling(base, blocksize, layout);
    var marked := WithNodata(tiled, nodata);
    BaseLookup(layout, dtype, crs, transform);
    TilingLookup(base, blocksize, layout);
    NodataLookup(tiled, nodata);
    OverrideLookup(marked, extra);
    marked + extra
  }

  /** Every key the caller passes overrides the computed one. */
  lemma CallerOptionsWin(layout: Layout, dtype: string, crs: Value, transform: Affine,
                         nodata: Value, blocksize: Option<int>, extra: Kwargs, k: string)
    requires k in extra
    ensures Lookup(WriteOptions(layout, dtype, crs, transform, nodata, blocksize, extra), k) == Some(extra[k])
  {
  }

  /** Unless the caller overrides them, the predictor is 2 and compression DEFLATE. */
  lemma DefaultsKept(layout: Layout, dtype: string, crs: Value, transform: Affine,
                     nodata: Value, blocksize: Option<int>, extra: Kwargs)
    ensures var o := WriteOptions(layout, dtype, crs, transform, nodata, blocksize, extra);
            && ("predictor" !in extra ==> Lookup(o, "predictor") == Some(IntV(2)))
            && ("compress" !in extra ==> Lookup(o, "compress") == Some(StrV("DEFLATE")))
  {
  }

  /** A `nodata` option appears (unless the caller gives one) exactly when
      nodata is not None. */
  lemma NodataOnlyWhenSet(layout: Layout, dtype: string, crs: Value, transform: Affine,
                          nodata: Value, blocksize: Option<int>, extra: Kwargs)
    requires "nodata" !in extra
    ensures var o := WriteOptions(layout, dtype, crs, transform, nodata, blocksize, extra);
            && ("nodata" in o <==> nodata != NoneV)
            && (nodata != NoneV ==> o["nodata"] == nodata)
  {
  }

  /** With a block size the image is tiled and neither tile edge exceeds the
      image (unless the caller overrides it); without one no tiling key is
      added. */
  lemma TilesWithinExtent(layout: Layout, dtype: string, crs: Value, transform: Affine,
                          nodata: Value, blocksize: Option<int>, extra: Kwargs)
    ensures var o := WriteOptions(layout, dtype, crs, transform, nodata, blocksize, extra);
            && (blocksize.Some? && "tiled" !in extra ==> Lookup(o, "tiled") == Some(BoolV(true)))
            && (blocksize.Some? && "blockxsize" !in extra ==>
                  Lookup(o, "blockxsize") == Some(IntV(Min(blocksize.value, layout.width)))
                  && Min(blocksize.value, layout.width) <= layout.width)
            && (blocksize.Some? && "blockysize" !in extra ==>
                  Lookup(o, "blockysize") == Some(IntV(Min(blocksize.value, layout.height)))
                  && Min(blocksize.value, layout.height) <= layout.height)
            && (blocksize.None? ==>
                  forall k :: k in o && k !in extra ==> k != "tiled" && k != "blockxsize" && k != "blockysize")
  {
  }

  /** What the raster library is asked to write. */
  datatype WriteRequest = WriteRequest(path: Path, driver: string, options: Kwargs, pixels: Array, bands: BandSel)

  /** What the raster library reports back: the file's bytes and its metadata record. */
  datatype Written = Written(content: Bytes, meta: Kwargs)

  /** The files after the call, and the metadata record returned or the exception raised. */
  datatype WriteOutcome = WriteOutcome(files: FileSystem, result: Result<Kwargs, Error>)

  /** The request `write_gtiff` hands to the raster library once the checks pass. */
  function RequestFor(fname: Path, pix: Array, layout: Layout, crs: Value, resolution: (real, real),
                      offset: (real, real), nodata: Value, blocksize: Option<int>, extra: Kwargs): (q: WriteRequest)
    ensures q.path == fname && q.driver == Driver && q.pixels == pix && q.bands == layout.bands
    ensures q.options == WriteOptions(layout, pix.dtype, crs, MakeTransform(resolution, offset), nodata, blocksize, extra)
  {
    var transform := MakeTransform(resolution, offset);
    WriteRequest(fname, Driver, WriteOptions(layout, pix.dtype, crs, transform, nodata, blocksize, extra), pix, layout.bands)
  }

  /** `write_gtiff`. */
  function WriteGTiff(files: FileSystem, fname: Path, pix: Array, crs: Value, resolution: (real, real),
                      offset: (real, real), nodata: Value, overwrite: bool, blocksize: Option<int>,
                      extra: Kwargs, write: WriteRequest -> Result<Written, Error>): (r: WriteOutcome)
    // a wrong dimensionality is refused before the file system is looked at
    ensures |pix.shape| != 2 && |pix.shape| != 3 ==> r == WriteOutcome(files, Failure(ValueError(NdimMessage)))
    // an existing target without overwrite is refused and left alone
    ensures (|pix.shape| == 2 || |pix.shape| == 3) && fname in files && !overwrite ==>
              r == WriteOutcome(files, Failure(IOError(ExistsMessage)))
    // once the checks pass, a caller's `driver` repeats the keyword the library
    // is called with: the target is already deleted and nothing is written
    ensures (|pix.shape| == 2 || |pix.shape| == 3) && (fname !in files || overwrite) && "driver" in extra ==>
              r == WriteOutcome(files - {fname}, Failure(TypeError(DriverClashMessage)))
    // otherwise the library receives the computed request
    ensures (|pix.shape| == 2 || |pix.shape| == 3) && (fname !in files || overwrite) && "driver" !in extra ==>
              var layout := SplitShape(pix.shape).value;
              var q := RequestFor(fname, pix, layout, crs, resolution, offset, nodata, blocksize, extra);
              && (write(q).Failure? ==> r.files == files - {fname} && r.result == Failure(write(q).error))
              && (write(q).Success? ==> r.files == files[fname := write(q).value.content]
                                        && r.result == Annotate(write(q).value.meta, "gbox", fname))
    // only the target path can change
    ensures forall p :: p != fname ==> (p in r.files <==> p in files)
    ensures forall p :: p in r.files && p != fname ==> r.files[p] == files[p]
    ensures r.result.Success? ==> fname in r.files && "path" in r.result.value && r.result.value["path"] == PathV(fname)
  {
    match SplitShape(pix.shape)
    case Failure(e) => WriteOutcome(files, Failure(e))
    case Success(layout) =>
      match PrepareTarget(files, fname, overwrite)
      case Failure(e) => WriteOutcome(files, Failure(e))
      case Success(cleared) =>
        if "driver" in extra then WriteOutcome(cleared, Failure(TypeError(DriverClashMessage)))
        else
          var q := RequestFor(fname, pix, layout, crs, resolution, offset, nodata, blocksize, extra);
          match write(q)
          case Failure(e) => WriteOutcome(cleared, Failure(e))
          case Success(w) => WriteOutcome(cleared[fname := w.content], Annotate(w.meta, "gbox", fname))
  }
}
